=== FILE: README.md ===
# CD-audio streaming core of SDL2_CDROM (macOS), in Dafny

On macOS, SDL2_CDROM plays a CD audio track by streaming its AIFC file through
an output audio unit. Three cooperating pieces do the work:

- **the reader thread** (`FileReaderThread`): one per process. It keeps a FIFO
  of pending read requests, a count of registered readers and a should-die
  flag;
- **the file manager** (`AudioFileManager`): one per track. It owns a buffer
  of two halves of one chunk each, a read cursor and a logical end of file.
  The worker thread fills one half while the render callback hands out the
  other;
- **the player** (`AudioFilePlayer`): it holds the connection state, converts
  between CD frames (2352 bytes) and byte offsets, and decides what to do
  with a notification when no notifier is installed.

The model keeps this sequential bookkeeping as pure state transitions on
immutable records. Every concurrent step is one function. The outcome of each
non-blocking try-lock, each `FSReadFork`, the unit checks in
`SetDestination` and the callback install in `Connect` is a parameter. The
callback removal in `Disconnect` is taken to succeed (see "## Left out").

- `platform.dfy` (`Platform`): status codes and fixed-width integer
  conversions.
- `reader_thread.dfy` (`ReaderThread`): the queue and the reader lifecycle.
- `file_manager.dfy` (`FileManager`): the operations of the manager that do
  not call back into the player.
- `file_player.dfy` (`FilePlayer`): the player. A `System` is one session
  together with the shared reader thread and the log of statuses its notifier
  has received.
- `render_path.dfy` (`RenderPath`): the manager operations that notify the
  player (`GetFileData`, `AfterRender`, `Render`) and the worker's service of
  one dequeued request.

Behaviour the model keeps because the code does it:

- The queue accepts duplicate entries. `GetFileData` enqueues on every
  unfinished call, underrun included.
- The read flag flips even on an underrun. With the worker idle, the next
  request therefore hands out the half already delivered once more.
- The same flip puts the halves out of phase. Once the ready half is used
  up, a request underruns. After one successful fill, the next request finds
  the flags equal again and underruns a second time, although a filled half
  is waiting.
- Once the reader is finished and has been asked again, every `AfterRender`
  whose try-lock succeeds posts "file is finished" again.
- If installing the render callback fails in `Connect`, the manager stays
  engaged while the player is disconnected. `Disconnect` is then a no-op and
  every later `Connect` throws -1.
- With no notifier, a read error on the last registered reader makes the
  worker disconnect the session itself, and so set its own should-die flag.
  `RemoveReader` then waits on the guard for the exit notification that
  the worker itself would post, so the worker stays blocked until another
  thread notifies the guard, for instance a later `TryNextRead` from the
  render path (see `RenderPath.RetryQueuesDisconnectedReader`).
- A read that returns `eofErr` only moves the cursor to the end. The reader
  is marked finished when the worker next dequeues it and finds nothing
  left to read.
- Seeking does not reset the byte counter, so `GetCurrentFrame` after a seek
  counts the frames streamed before it.
- `GetFileData` always returns `noErr`. The error branch of `Render`
  (AudioFileReaderThread.cpp lines 521-525) is therefore unreachable, and the
  model has no such path.

## Model

| member | source | states |
|---|---|---|
| ReaderThread.NewPool | SDL2CDROM/SDL2CDROM/cdrom/macosx/AudioFileReaderThread.cpp:350-360 | a new reader thread has an empty queue, no readers and should-die cleared |
| ReaderThread.TryNextRead | SDL2CDROM/SDL2CDROM/cdrom/macosx/AudioFileReaderThread.cpp:79-108 | a successful try-lock appends the reader at the tail and returns 1; a failed one changes nothing and returns 0 |
| ReaderThread.AddReader | SDL2CDROM/SDL2CDROM/cdrom/macosx/AudioFileReaderThread.cpp:110-118 | the count always grows by one; should-die is cleared only on the 0 to 1 transition; the queue is untouched |
| ReaderThread.Without | SDL2CDROM/SDL2CDROM/cdrom/macosx/AudioFileReaderThread.cpp:127-143 | the unlinked queue has no entry for the reader, keeps every other entry with its multiplicity, and keeps their relative order |
| ReaderThread.RemoveEntries | SDL2CDROM/SDL2CDROM/cdrom/macosx/AudioFileReaderThread.cpp:127-143 | the list walk that relinks around the reader's nodes computes exactly `Without` |
| ReaderThread.RemoveReader | SDL2CDROM/SDL2CDROM/cdrom/macosx/AudioFileReaderThread.cpp:120-154 | a no-op with no readers; otherwise it drops every entry of the reader (the others keep their order), decrements the count, and sets should-die iff the count reaches 0 (or it was already set) |
| ReaderThread.LastRemovalStopsWorker | SDL2CDROM/SDL2CDROM/cdrom/macosx/AudioFileReaderThread.cpp:145-149 | in a consistent pool the worker is told to exit exactly when the last reader is removed |
| ReaderThread.AddThenRemove | SDL2CDROM/SDL2CDROM/cdrom/macosx/AudioFileReaderThread.cpp:110-154 | registering then removing a reader with no queued request restores the pool, except that should-die is set when the pool is empty again |
| ReaderThread.BeforeWait | SDL2CDROM/SDL2CDROM/cdrom/macosx/AudioFileReaderThread.cpp:257-268 | under the lock the worker exits iff should-die is set, and blocks iff it is not and the queue is empty |
| ReaderThread.TakeHead | SDL2CDROM/SDL2CDROM/cdrom/macosx/AudioFileReaderThread.cpp:270-288 | after the wait the worker quits iff should-die is set; otherwise it pops exactly the head, or nothing from an empty queue |
| ReaderThread.ServedInQueueOrder | SDL2CDROM/SDL2CDROM/cdrom/macosx/AudioFileReaderThread.cpp:281-288 | repeated head pops serve the pending requests exactly in queue order |
| ReaderThread.ServedInEnqueueOrder | SDL2CDROM/SDL2CDROM/cdrom/macosx/AudioFileReaderThread.cpp:79-108 | after any run of enqueue attempts the worker serves the old queue, then exactly the attempts whose try-lock succeeded, in order |
| FileManager.NewManager | SDL2CDROM/SDL2CDROM/cdrom/macosx/AudioFileReaderThread.cpp:565-571 | a new manager records its id, length and chunk size, is not engaged or finished, and has offset = size = chunk, so the first render fetches |
| FileManager.RequestSizeAsWritten | SDL2CDROM/SDL2CDROM/cdrom/macosx/AudioFileReaderThread.cpp:294-297 | the size as the code computes it is below 2^64 and is min(remaining, chunk) whenever the remaining byte count is not negative |
| FileManager.RequestSize | SDL2CDROM/SDL2CDROM/cdrom/macosx/AudioFileReaderThread.cpp:294-303 | the next read never exceeds one chunk or the bytes left; it is 0 exactly when nothing is left (or the chunk is empty); a short read reaches the end |
| FileManager.RequestSizeAgrees | SDL2CDROM/SDL2CDROM/cdrom/macosx/AudioFileReaderThread.cpp:294-297 | while the cursor is not past the end, the corrected size equals the size the code computes |
| FileManager.FillHalf | SDL2CDROM/SDL2CDROM/cdrom/macosx/AudioFileReaderThread.cpp:316-322 | the target half holds the bytes read followed by zeros up to a full chunk; every other byte is unchanged |
| FileManager.ServiceRead | SDL2CDROM/SDL2CDROM/cdrom/macosx/AudioFileReaderThread.cpp:294-329 | with nothing left, only the finished flag is set; on noErr/eofErr the write half is filled and padded, the write flag flips once, and the cursor advances by the count (to the end on eofErr); on any other status the error is reported and the flag and cursor stay |
| FileManager.ReadStaysWithinEnd | SDL2CDROM/SDL2CDROM/cdrom/macosx/AudioFileReaderThread.cpp:323-329 | a read never moves the cursor backwards or past the logical end |
| FileManager.SetPosition | SDL2CDROM/SDL2CDROM/cdrom/macosx/AudioFileReaderThread.cpp:464-473 | an in-range seek sets the cursor, any other sets it to 0, the cursor ends in [0, length) for a non-empty file, and nothing else changes |
| FileManager.SeekLeavesDataToRead | SDL2CDROM/SDL2CDROM/cdrom/macosx/AudioFileReaderThread.cpp:464-473 | after any seek in a non-empty file the next read size is positive |
| FileManager.SetEndOfFile | SDL2CDROM/SDL2CDROM/cdrom/macosx/AudioFileReaderThread.cpp:475-483 | a limit in (0, length] becomes the end exactly, any other leaves it; the end never grows and nothing else changes |
| FileManager.EndOfFileLimitsReads | SDL2CDROM/SDL2CDROM/cdrom/macosx/AudioFileReaderThread.cpp:475-483 | after a new end at or past the cursor, the next read stays within it |
| FileManager.EndBelowCursorOverrunsHalf | SDL2CDROM/SDL2CDROM/cdrom/macosx/AudioFileReaderThread.cpp:294-297 | seek to frame 200 then stop at frame 100: the size as written is 2^64 - 235200, larger than the half it reads into, while the corrected size is 0 |
| FileManager.DoConnect | SDL2CDROM/SDL2CDROM/cdrom/macosx/AudioFileReaderThread.cpp:363-396 | engaged: throws -1 and changes nothing; otherwise it clears finished, asked and lock flags and primes the first half; a non-zero read status is thrown; on success the cursor advances by the count, write=0, read=1, the reader registers and is engaged |
| FileManager.Disconnect | SDL2CDROM/SDL2CDROM/cdrom/macosx/AudioFileReaderThread.cpp:398-405 | a no-op unless engaged; otherwise it removes the reader from the thread and disengages |
| FileManager.DisconnectIdempotent | SDL2CDROM/SDL2CDROM/cdrom/macosx/AudioFileReaderThread.cpp:398-405 | disconnecting twice is disconnecting once |
| FileManager.ConnectThenDisconnect | SDL2CDROM/SDL2CDROM/cdrom/macosx/AudioFileReaderThread.cpp:363-405 | connect then disconnect leaves the manager disengaged with no queued request and the reader count where it was, with should-die set iff there were no readers before |
| FilePlayer.ChunkSizeValue | SDL2CDROM/cdrom/macosx/AudioFilePlayer.cpp:322-332 | the chunk handed to the manager, 4 s x 44100 Hz x 4 bytes, is 705600 bytes and fits a UInt32 |
| FilePlayer.AudioDataSize | SDL2CDROM/cdrom/macosx/AudioFilePlayer.cpp:287 | the data size is ckSize - offset - 8 when that is not negative and wraps by 2^32 otherwise |
| FilePlayer.FrameRangeExact | SDL2CDROM/cdrom/macosx/AudioFilePlayer.cpp:122 | frame * 2352 fits an `int` exactly for frames in [-913045, 913045] |
| FilePlayer.NewPlayer | SDL2CDROM/cdrom/macosx/AudioFilePlayer.cpp:302-339 | a new session is disconnected with no render callback, no notifier, no output unit, start frame 0 and an empty notification log; its manager gets the AIFC data size and a 705600-byte chunk with offset = size; it shares the existing reader thread if there is one, and otherwise gets a new one with should-die cleared |
| FilePlayer.SetNotifier | SDL2CDROM/cdrom/macosx/AudioFilePlayer.cpp:96-100 | installs or removes the notifier and changes nothing else |
| FilePlayer.SetDestination | SDL2CDROM/cdrom/macosx/AudioFilePlayer.cpp:61-94 | throws -1 and changes nothing when connected; otherwise stores the unit before any check and returns whether it was accepted; nothing else changes |
| FilePlayer.RejectedUnitIsKept | SDL2CDROM/cdrom/macosx/AudioFilePlayer.cpp:63-73 | a unit SetDestination turns down (returning 0) is still stored as the session's unit |
| FilePlayer.Disconnect | SDL2CDROM/cdrom/macosx/AudioFilePlayer.cpp:198-220 | a no-op when not connected; otherwise clears connected and the callback and disconnects the manager; the notifier, output unit, start frame and log are kept |
| FilePlayer.DisconnectIdempotent | SDL2CDROM/cdrom/macosx/AudioFilePlayer.cpp:198-220 | disconnecting twice is disconnecting once |
| FilePlayer.Connect | SDL2CDROM/cdrom/macosx/AudioFilePlayer.cpp:155-180 | connected: returns 1 and changes nothing; otherwise returns 1 iff the manager was not engaged and both the read and the unit call succeed, and only then is connected with the callback installed; the manager and pool are DoConnect's; a throw leaves connection and callback as they were; the notifier, output unit, start frame and log never change |
| FilePlayer.ConnectThenDisconnect | SDL2CDROM/cdrom/macosx/AudioFilePlayer.cpp:155-220 | a successful connect followed by a disconnect leaves the session and manager disconnected, the reader unqueued and the reader count restored |
| FilePlayer.UnitFailureStrandsManager | SDL2CDROM/cdrom/macosx/AudioFilePlayer.cpp:169-176 | a failed callback install throws its status but leaves the manager engaged; Disconnect then does nothing and the next Connect throws -1 |
| FilePlayer.DoNotification | SDL2CDROM/cdrom/macosx/AudioFilePlayer.cpp:184-196 | with a notifier the status is forwarded and nothing else changes; without one, underrun changes nothing and every other status disconnects |
| FilePlayer.FallbackDisconnectsUnlessUnderrun | SDL2CDROM/cdrom/macosx/AudioFilePlayer.cpp:188-195 | without a notifier a connected session stays connected iff the status is underrun |
| FilePlayer.SetStartFrame | SDL2CDROM/cdrom/macosx/AudioFilePlayer.cpp:120-126 | stores the frame, seeks the manager to frame * 2352 through the clamp (exactly there when in range), and leaves the byte counter alone |
| FilePlayer.SetStopFrame | SDL2CDROM/cdrom/macosx/AudioFilePlayer.cpp:133-138 | sets the logical end to frame * 2352 when in (0, length], otherwise leaves it; the end never grows |
| FilePlayer.GetCurrentFrame | SDL2CDROM/cdrom/macosx/AudioFilePlayer.cpp:128-131 | the result fits an `int` and is the start frame plus the byte counter divided by 2352, truncated toward zero |
| FilePlayer.SeekKeepsStreamedFrames | SDL2CDROM/cdrom/macosx/AudioFilePlayer.cpp:120-131 | right after a seek the reported frame exceeds the new start frame by as many frames as before the seek |
| RenderPath.GetFileData | SDL2CDROM/SDL2CDROM/cdrom/macosx/AudioFileReaderThread.cpp:417-445 | finished: no data, asked count + 1, nothing else; flags equal: no data and an underrun notification; otherwise the half named by the read flag, whole. Both unfinished paths try to enqueue, record a failure and flip the read flag |
| RenderPath.DeliveredHalfIsNotFillTarget | SDL2CDROM/SDL2CDROM/cdrom/macosx/AudioFileReaderThread.cpp:435-438 | the half handed to the render path is never the half the worker fills next |
| RenderPath.UnderrunReplaysDeliveredHalf | SDL2CDROM/SDL2CDROM/cdrom/macosx/AudioFileReaderThread.cpp:427-442 | with the worker idle, deliver then underrun then deliver again hands out the same half twice and queues the reader three times |
| RenderPath.AfterRender | SDL2CDROM/SDL2CDROM/cdrom/macosx/AudioFileReaderThread.cpp:447-462 | the rendering state (offset, size, chunk pointer, byte counter, read flag) is untouched; apart from a due notification, the only changes are the retried enqueue (only when the last one failed) and the lock-failure flag |
| RenderPath.AfterRenderNotifies | SDL2CDROM/SDL2CDROM/cdrom/macosx/AudioFileReaderThread.cpp:449-458 | "file is finished" is posted exactly when the asked count is positive, the try-lock succeeds and a notifier is installed |
| RenderPath.AfterRenderDisconnects | SDL2CDROM/SDL2CDROM/cdrom/macosx/AudioFileReaderThread.cpp:449-458 | without a notifier, a due finish notification disconnects the session and disengages its manager; with none due, connection and engagement are unchanged |
| RenderPath.AfterRenderRetries | SDL2CDROM/SDL2CDROM/cdrom/macosx/AudioFileReaderThread.cpp:460-461 | a failed enqueue is retried; the flag stays set iff the retry fails; with no disconnect, a successful retry appends exactly the reader to the queue, and without a failed enqueue the pool is unchanged |
| RenderPath.FinishedNotifiedOnEveryRender | SDL2CDROM/SDL2CDROM/cdrom/macosx/AudioFileReaderThread.cpp:449-458 | two renders after the end post "file is finished" twice |
| RenderPath.RetryQueuesDisconnectedReader | SDL2CDROM/SDL2CDROM/cdrom/macosx/AudioFileReaderThread.cpp:447-462 | without a notifier the finish notification disconnects the session, and the retry that follows queues the now unregistered reader again |
| RenderPath.NextChunk | SDL2CDROM/SDL2CDROM/cdrom/macosx/AudioFileReaderThread.cpp:519-528 | a fetch happens only when the chunk is used up; it then leaves the session as GetFileData left it except that the pointer and size come from GetFileData and the offset is reset to 0; otherwise nothing changes |
| RenderPath.SliceOf | SDL2CDROM/SDL2CDROM/cdrom/macosx/AudioFileReaderThread.cpp:530-532 | a buffer gets at most what it asked for and at most what is left of the chunk, all of it when it asked for more, starting at the current offset inside the double buffer |
| RenderPath.Deliver | SDL2CDROM/SDL2CDROM/cdrom/macosx/AudioFileReaderThread.cpp:530-535 | the offset advances by the slice size and the 32-bit byte counter by the same amount, with wrap-around; the session stays consistent (offset <= size) |
| RenderPath.ChunkContinuesOrRestarts | SDL2CDROM/SDL2CDROM/cdrom/macosx/AudioFileReaderThread.cpp:519-533 | without a fetch a buffer continues the chunk where the last stopped; with one it starts the fetched chunk at offset 0 and gets min(request, the fetched size), which is 0 on an underrun or once the reader is finished |
| RenderPath.Step | SDL2CDROM/SDL2CDROM/cdrom/macosx/AudioFileReaderThread.cpp:519-536 | one iteration of the render loop (fetch if the chunk is used up, deliver, then AfterRender) keeps the session consistent |
| RenderPath.StepDelivers | SDL2CDROM/SDL2CDROM/cdrom/macosx/AudioFileReaderThread.cpp:519-535 | one iteration hands its buffer min(request, what is left of the chunk after the fetch); without a fetch it starts at the current offset, with one at the start of the chunk GetFileData returned; the counter grows by the same amount |
| RenderPath.FollowsExtend | SDL2CDROM/SDL2CDROM/cdrom/macosx/AudioFileReaderThread.cpp:517-536 | a recorded run of the loop extends by one iteration, with the new buffer's size again min(request, what is left of the chunk) |
| RenderPath.TallyExtend | SDL2CDROM/SDL2CDROM/cdrom/macosx/AudioFileReaderThread.cpp:530-535 | the running totals of a recorded run (per-buffer bound, chunk size, wrapped byte counter) extend by one buffer |
| RenderPath.RenderBuffer | SDL2CDROM/SDL2CDROM/cdrom/macosx/AudioFileReaderThread.cpp:517-536 | one iteration extends the recorded run: its buffer gets min(request, what is left of the chunk after the fetch), inside the double buffer, and the counter grows by exactly that |
| RenderPath.Render | SDL2CDROM/SDL2CDROM/cdrom/macosx/AudioFileReaderThread.cpp:511-539 | the buffers are filled by successive iterations from the initial session to the final one; buffer i gets min(request i, what is left of the chunk after the fetch at step i), inside the double buffer; the counter grows by exactly the bytes handed out, modulo 2^32 (exactly, when no wrap) |
| RenderPath.FirstRenderFetches | SDL2CDROM/SDL2CDROM/cdrom/macosx/AudioFileReaderThread.cpp:567-568 | a new session's first render fetches a chunk before handing out a byte, so the uninitialised pointer is never used |
| RenderPath.WorkerService | SDL2CDROM/SDL2CDROM/cdrom/macosx/AudioFileReaderThread.cpp:294-329 | the worker applies the manager's read handling and forwards a read error to DoNotification; without a notifier that error disconnects the session |
| RenderPath.FilledHalfIsDeliveredNext | SDL2CDROM/SDL2CDROM/cdrom/macosx/AudioFileReaderThread.cpp:305-329 | when the ready half has been used up (flags equal) and no request comes in between, a successful fill is handed out next: exactly the half just filled (the bytes read, zero-padded), whole |
| RenderPath.UnderrunThenFillUnderrunsAgain | SDL2CDROM/SDL2CDROM/cdrom/macosx/AudioFileReaderThread.cpp:427-442 | with the flags equal, a request underruns and flips the read flag, so after one successful fill the next request underruns again |
| RenderPath.WorkerErrorStopsItsOwnThread | SDL2CDROM/SDL2CDROM/cdrom/macosx/AudioFileReaderThread.cpp:310-313 | a read error on the last reader with no notifier makes the worker set its own should-die flag |

## Left out

- Thread creation, priority and the entry point (`StartFixedPriorityThread`, `GetThreadBasePriority`, `DiskReaderEntry`) are OS scheduling glue.
- The blocking of `Lock`, `Wait` and `Notify`: a blocking lock is taken to succeed, a try-lock outcome is a parameter, and a wait is a point where other steps may change the pool.
- `FSReadFork` (inside `Read`) and `FSGetForkPosition` are file I/O. A read is a parameter: a status and the bytes stored, at most the requested count. On an error the bytes are taken as stored in the half.
- The AIFC chunk walk in `OpenFile` is driven by fork reads. Only the data-size formula and the fixed 44.1 kHz 16-bit stereo format are kept.
- Audio unit and Component Manager calls (`GetComponentInfo`, `AudioUnitSetProperty`, the `FileInputProc` trampoline) are foreign calls. Their outcome is a parameter: `accepted`, or `unitStatus`.
- The `Float64` sample rate is the integer 44100.
- Debug output and `SDL_SetError` messages are left out.
- When the queue is empty after a wake-up, the source dereferences a NULL
  item. That undefined behaviour is not modelled: `TakeHead` returns `None`
  there and the pool is unchanged.
- The constructor leaves the cursor, the flags, the byte counter and the
  chunk pointer uninitialised. Reading such indeterminate values is not
  modelled: the model starts them at zero, false and NULL.
- The end-to-end property that the bytes delivered over a whole playback equal the file is not stated. It needs an interleaving of worker and render steps, which the model does not fix.
- FilePlayer.Disconnect: removing the render callback from the output unit is taken to succeed, so `renderCallback` is cleared. The source only logs a failed removal, which leaves the callback installed and the unit still calling `Render`.
- FileManager.ServiceRead: the source computes the size from a wrapping unsigned difference. The model uses the corrected `RequestSize` (see Findings) and requires the read count to be at most that size.
- FileManager.DoConnect: the priming read uses the corrected `RequestSize` for the same reason.
- FilePlayer.SetStartFrame: requires the frame's byte offset to fit an `int`. Beyond that, `frame * 2352` is signed overflow in C++, whose result is undefined.
- FilePlayer.SetStopFrame: requires the frame's byte offset to fit an `int`, for the same reason.
- FilePlayer.GetCurrentFrame: requires a start frame in that range and a counter that fits an `int`. Both hold in every session `Valid` describes.
- The asked-since-finished counter (`int`) is unbounded in the model. Its overflow after 2^31 requests is not modelled.
- Positions and lengths (`SInt64`) are unbounded. The 32-bit inputs keep them far below 2^63.
- `ByteCount` is 64 bits wide, as on 64-bit hosts. 32-bit hosts are not modelled.

## Findings

| source | as written | input that shows it | evidently intended | confidence | as-written member | corrected member |
|---|---|---|---|---|---|---|
| SDL2CDROM/SDL2CDROM/cdrom/macosx/AudioFileReaderThread.cpp:294-297 | `mFileLength - mReadFilePosition` is stored in the unsigned `ByteCount`; when `SetEndOfFile` has moved the end below the cursor, the negative difference wraps to nearly 2^64, the `<= 0` finish test misses it, and `Read` is asked for far more than the half it writes into | `SetStartFrame(200)` then `SetStopFrame(100)` on a 1000-frame track: the requested size is 2^64 - 235200 | a cursor at or past the end means nothing is left: size 0, reader finished | not executed | FileManager.RequestSizeAsWritten, FileManager.EndBelowCursorOverrunsHalf | FileManager.RequestSize |

=== FILE: file_manager.dfy ===
/** The double-buffered file reader (class AudioFileManager), restricted to
    the operations that do not reach back into the owning player: the next
    read size, the worker's handling of a finished read, seeking, the
    logical end of file, and connecting to / disconnecting from the shared
    reader thread.

    The buffer holds two halves of `chunkSize` bytes. `writeToFirst` names
    the half the worker fills next and `readFromFirst` the half handed to
    the render path next; when they agree, no new data is ready. */
module FileManager {
  import opened Platform
  import ReaderThread

  /** What FSReadFork reports: its status and the bytes it stored. The
      actual count it returns is `|data|`. */
  datatype ReadResult = ReadResult(status: int, data: seq<Byte>)

  /** A read the worker accepts: no error, or end of file. */
  predicate ReadOk(status: int) {
    status == NoErr || status == EofErr
  }

  datatype Manager = Manager(
    id: ReaderThread.ReaderId,   // this object, as the queue stores it
    chunkSize: nat,              // mChunkSize (UInt32)
    fileLength: int,             // mFileLength: logical end of the audio data, in bytes
    readPos: int,                // mReadFilePosition: next byte the worker reads
    buffer: seq<Byte>,           // mFileBuffer: two halves of chunkSize bytes
    writeToFirst: bool,          // mWriteToFirstBuffer
    readFromFirst: bool,         // mReadFromFirstBuffer
    finished: bool,              // mFinishedReadingData
    askedSinceFinished: int,     // mNumTimesAskedSinceFinished
    lockUnsuccessful: bool,      // mLockUnsuccessful
    engaged: bool,               // mIsEngaged
    byteCounter: int,            // mByteCounter (a 32-bit int)
    tmpBuffer: Option<nat>,      // mTmpBuffer, as an offset into the buffer; None is NULL
    bufferSize: nat,             // mBufferSize: bytes in the chunk being rendered
    bufferOffset: nat)           // mBufferOffset: bytes of it already rendered

  /** Shape facts every reachable manager keeps. */
  predicate Valid(m: Manager) {
    && m.chunkSize < Two32
    && |m.buffer| == 2 * m.chunkSize
    && m.bufferOffset <= m.bufferSize <= m.chunkSize
    && (m.tmpBuffer.Some? ==> m.tmpBuffer.value == 0 || m.tmpBuffer.value == m.chunkSize)
    && (m.bufferOffset < m.bufferSize ==> m.tmpBuffer.Some?)
    && IsInt32(m.byteCounter)
  }

  /** Offset of the first (`first`) or second half of the buffer. */
  function HalfBase(m: Manager, first: bool): nat {
    if first then 0 else m.chunkSize
  }

  /** The constructor. Fields it leaves uninitialised start at zero, false
      and NULL here. */
  function NewManager(id: ReaderThread.ReaderId, fileLength: int, chunkSize: nat): (m: Manager)
    requires chunkSize < Two32
    ensures Valid(m)
    ensures m.id == id && m.fileLength == fileLength && m.chunkSize == chunkSize
    ensures !m.engaged && !m.finished
    ensures m.bufferOffset == m.bufferSize == chunkSize   // the first Render fetches a chunk
  {
    Manager(id, chunkSize, fileLength, 0, Zeros(2 * chunkSize), false, false, false, 0,
            false, false, 0, None, chunkSize, chunkSize)
  }

  /** The next read size exactly as ReadNextChunk (and DoConnect's priming
      read) computes it: the difference is taken in SInt64 and stored in the
      unsigned 64-bit ByteCount, so a cursor past the logical end wraps to a
      huge size. */
  function RequestSizeAsWritten(m: Manager): (n: nat)
    ensures n < Two64
    ensures 0 <= m.fileLength - m.readPos < Two64 && m.chunkSize < Two64 ==>
              n == if m.fileLength - m.readPos < m.chunkSize then m.fileLength - m.readPos else m.chunkSize
  {
    var remaining := m.fileLength - m.readPos;
    if remaining < m.chunkSize then ToUInt64(remaining) else ToUInt64(m.chunkSize)
  }

  /** The next read size with the cursor-past-end case treated as nothing
      left to read: the smaller of the bytes left before the logical end and
      one chunk. */
  function RequestSize(m: Manager): (n: nat)
    ensures n <= m.chunkSize
    ensures m.readPos + n <= m.fileLength || n == 0
    ensures n == 0 <==> m.fileLength <= m.readPos || m.chunkSize == 0
    ensures n < m.chunkSize ==> m.readPos + n >= m.fileLength
  {
    var remaining := m.fileLength - m.readPos;
    if remaining <= 0 then 0 else if remaining < m.chunkSize then remaining else m.chunkSize
  }

  /** Wherever the cursor has not passed the logical end, the corrected size
      is the size the code computes. */
  lemma RequestSizeAgrees(m: Manager)
    requires m.readPos <= m.fileLength < m.readPos + Two64 && m.chunkSize < Two64
    ensures RequestSize(m) == RequestSizeAsWritten(m)
  {
  }

  /** The buffer after FSReadFork stored `data` at `base`. */
  function Store(buf: seq<Byte>, base: nat, data: seq<Byte>): (r: seq<Byte>)
    requires base + |data| <= |buf|
    ensures |r| == |buf|
    ensures forall i :: 0 <= i < |r| ==> r[i] == if base <= i < base + |data| then data[i - base] else buf[i]
  {
    buf[..base] + data + buf[base + |data|..]
  }

  /** `after` is `before` with the half at `base` holding `data` followed by
      zeros up to `chunk` bytes. */
  ghost predicate FilledHalf(before: seq<Byte>, after: seq<Byte>, base: nat, data: seq<Byte>, chunk: nat) {
    && |after| == |before|
    && forall i :: 0 <= i < |after| ==>
         after[i] == if base <= i < base + |data| then data[i - base]
                     else if base + |data| <= i < base + chunk then 0
                     else before[i]
  }

  /** The buffer after a read of `data` into the half at `base`, zero-padded
      to `chunk` bytes (the memset of a short read). */
  function FillHalf(buf: seq<Byte>, base: nat, data: seq<Byte>, chunk: nat): (r: seq<Byte>)
    requires |data| <= chunk && base + chunk <= |buf|
    ensures FilledHalf(buf, r, base, data, chunk)
  {
    Store(Store(buf, base, data), base + |data|, Zeros(chunk - |data|))
  }

  datatype Serviced = Serviced(m: Manager, failure: Option<int>)

  /** The worker's part of ReadNextChunk after it has dequeued this reader:
      with nothing left it marks the reader finished;
      otherwise it reads into the half marked for writing, and on success or
      end of file zero-pads a short read, flips the write flag and advances
      the cursor. Any other status is handed back for the player to be
      notified, with flags and cursor untouched. */
  function ServiceRead(m: Manager, rd: ReadResult): (r: Serviced)
    requires Valid(m)
    requires |rd.data| <= RequestSize(m)
    ensures Valid(r.m)
    ensures RequestSize(m) == 0 ==> r == Serviced(m.(finished := true), None)
    ensures RequestSize(m) > 0 ==>
              r.m == m.(buffer := r.m.buffer, writeToFirst := r.m.writeToFirst, readPos := r.m.readPos)
    ensures RequestSize(m) > 0 && !ReadOk(rd.status) ==>
              && r.failure == Some(rd.status)
              && r.m.writeToFirst == m.writeToFirst
              && r.m.readPos == m.readPos
    ensures RequestSize(m) > 0 && ReadOk(rd.status) ==>
              && r.failure == None
              && r.m.writeToFirst == !m.writeToFirst
              && r.m.readPos == (if rd.status == EofErr then m.fileLength else m.readPos + |rd.data|)
              && FilledHalf(m.buffer, r.m.buffer, HalfBase(m, m.writeToFirst), rd.data, m.chunkSize)
  {
    if RequestSize(m) == 0 then Serviced(m.(finished := true), None)
    else
      var base := HalfBase(m, m.writeToFirst);
      if !ReadOk(rd.status) then Serviced(m.(buffer := Store(m.buffer, base, rd.data)), Some(rd.status))
      else
        Serviced(m.(buffer := FillHalf(m.buffer, base, rd.data, m.chunkSize),
                    writeToFirst := !m.writeToFirst,
                    readPos := if rd.status == EofErr then m.fileLength else m.readPos + |rd.data|),
                 None)
  }

  /** A cursor at or before the logical end stays there through any read. */
  lemma ReadStaysWithinEnd(m: Manager, rd: ReadResult)
    requires Valid(m) && |rd.data| <= RequestSize(m)
    requires m.readPos <= m.fileLength
    ensures m.readPos <= ServiceRead(m, rd).m.readPos <= m.fileLength
  {
  }

  /** SetPosition: an in-range seek moves the cursor there, any other seek
      moves it to 0, and nothing else changes. */
  function SetPosition(m: Manager, pos: int): (r: Manager)
    ensures 0 <= pos < m.fileLength ==> r.readPos == pos
    ensures !(0 <= pos < m.fileLength) ==> r.readPos == 0
    ensures m.fileLength > 0 ==> 0 <= r.readPos < m.fileLength
    ensures r == m.(readPos := r.readPos)
  {
    if pos < 0 || pos >= m.fileLength then m.(readPos := 0) else m.(readPos := pos)
  }

  /** After any seek in a non-empty file the worker has bytes to read. */
  lemma SeekLeavesDataToRead(m: Manager, pos: int)
    requires m.fileLength > 0 && m.chunkSize > 0
    ensures RequestSize(SetPosition(m, pos)) > 0
  {
  }

  /** SetEndOfFile: a limit in (0, fileLength] becomes the logical end; any
      other leaves it. It never moves the end later, and nothing else changes. */
  function SetEndOfFile(m: Manager, pos: int): (r: Manager)
    ensures 0 < pos <= m.fileLength ==> r.fileLength == pos
    ensures !(0 < pos <= m.fileLength) ==> r.fileLength == m.fileLength
    ensures r.fileLength <= m.fileLength
    ensures r == m.(fileLength := r.fileLength)
  {
    if pos <= 0 || pos > m.fileLength then m else m.(fileLength := pos)
  }

  /** Reads after a new logical end never go past it. */
  lemma EndOfFileLimitsReads(m: Manager, pos: int)
    requires 0 < pos <= m.fileLength && m.readPos <= pos
    ensures SetEndOfFile(m, pos).readPos + RequestSize(SetEndOfFile(m, pos)) <= pos
  {
  }

  /** Lowering the end below the cursor, which SetEndOfFile permits, makes
      the size the code computes exceed the half it reads into, while the
      corrected size finishes the reader. */
  lemma EndBelowCursorOverrunsHalf()
    ensures var m := SetEndOfFile(SetPosition(NewManager(7, 1000 * CdFrameBytes, 705600), 200 * CdFrameBytes),
                                  100 * CdFrameBytes);
            && RequestSizeAsWritten(m) == Two64 - 100 * CdFrameBytes
            && RequestSizeAsWritten(m) > m.chunkSize
            && RequestSize(m) == 0
  {
  }

  datatype Connecting = Connecting(m: Manager, pool: ReaderThread.Pool, outcome: Outcome)

  /** DoConnect: an engaged manager throws -1 and changes nothing. Otherwise
      it clears finished, the asked counter and the failed-enqueue flag and
      primes the first half with one read (no zero padding); a non-zero
      status, end of file included, is thrown from there. On success the
      cursor advances by the count read, the worker fills the second half
      next while the render path reads the first, and the manager registers
      with the reader thread and is engaged. */
  function DoConnect(m: Manager, pool: ReaderThread.Pool, rd: ReadResult): (r: Connecting)
    requires Valid(m)
    requires |rd.data| <= RequestSize(m)
    ensures Valid(r.m)
    ensures m.engaged ==> r == Connecting(m, pool, Thrown(AlreadyEngaged))
    ensures !m.engaged ==>
              && !r.m.finished && r.m.askedSinceFinished == 0 && !r.m.lockUnsuccessful
              && r.m.buffer == Store(m.buffer, 0, rd.data)
    ensures !m.engaged && rd.status != NoErr ==>
              && r.outcome == Thrown(rd.status)
              && r.pool == pool
              && r.m == m.(finished := false, askedSinceFinished := 0, lockUnsuccessful := false,
                           buffer := r.m.buffer)
    ensures !m.engaged && rd.status == NoErr ==>
              && r.outcome == Returned(1)
              && r.m.engaged
              && r.m.readPos == m.readPos + |rd.data|
              && !r.m.writeToFirst && r.m.readFromFirst
              && r.pool == ReaderThread.AddReader(pool)
              && r.m == m.(finished := false, askedSinceFinished := 0, lockUnsuccessful := false,
                           buffer := r.m.buffer, readPos := r.m.readPos, writeToFirst := false,
                           readFromFirst := true, engaged := true)
  {
    if m.engaged then Connecting(m, pool, Thrown(AlreadyEngaged))
    else
      var m1 := m.(finished := false, askedSinceFinished := 0, lockUnsuccessful := false,
                   buffer := Store(m.buffer, 0, rd.data));
      if rd.status != NoErr then Connecting(m1, pool, Thrown(rd.status))
      else
        Connecting(m1.(readPos := m.readPos + |rd.data|, writeToFirst := false,
                       readFromFirst := true, engaged := true),
                   ReaderThread.AddReader(pool), Returned(1))
  }

  datatype Detached = Detached(m: Manager, pool: ReaderThread.Pool)

  /** Disconnect: a no-op unless engaged; otherwise the manager leaves the
      reader thread (its queued requests go with it) and is disengaged. */
  function Disconnect(m: Manager, pool: ReaderThread.Pool): (r: Detached)
    ensures !m.engaged ==> r == Detached(m, pool)
    ensures m.engaged ==> r.m == m.(engaged := false) && r.pool == ReaderThread.RemoveReader(pool, m.id)
    ensures !r.m.engaged
  {
    if m.engaged then Detached(m.(engaged := false), ReaderThread.RemoveReader(pool, m.id))
    else Detached(m, pool)
  }

  /** Disconnecting twice is disconnecting once. */
  lemma DisconnectIdempotent(m: Manager, pool: ReaderThread.Pool)
    ensures var d := Disconnect(m, pool); Disconnect(d.m, d.pool) == d
  {
  }

  /** A successful connect followed by a disconnect leaves the reader
      unregistered with no request queued, and the reader count where it was. */
  lemma ConnectThenDisconnect(m: Manager, pool: ReaderThread.Pool, rd: ReadResult)
    requires Valid(m) && ReaderThread.Valid(pool)
    requires !m.engaged && rd.status == NoErr && |rd.data| <= RequestSize(m)
    ensures var c := DoConnect(m, pool, rd);
            var d := Disconnect(c.m, c.pool);
            && !d.m.engaged
            && d.pool.numReaders == pool.numReaders
            && m.id !in d.pool.queue
            && (d.pool.shouldDie <==> pool.numReaders == 0)
  {
  }
}

=== FILE: file_player.dfy ===
/** The playback session (class AudioFilePlayer): its connection state, the
    notification fallback, frame-based seeking over the 2352-byte CD frame,
    and the sizes it hands to its file manager.

    A `System` is one session together with the process-wide reader thread
    it shares with other sessions, and the statuses its notifier has been
    called with so far. Calls into the output unit are parameters: the
    status AudioUnitSetProperty returns, or whether SetDestination's
    component checks accepted the unit. */
module FilePlayer {
  import opened Platform
  import ReaderThread
  import FileManager

  /** The fixed stream format: 44.1 kHz, 16-bit stereo, 4 bytes per frame. */
  const SampleRate: nat := 44100
  const BytesPerFrame: nat := 4
  /** Seconds of audio per chunk. */
  const ChunkSeconds: nat := 4
  /** The chunk size the constructor hands to the file manager. */
  const ChunkSize: nat := ChunkSeconds * SampleRate * BytesPerFrame

  /** A chunk is 705600 bytes and fits the manager's UInt32. */
  lemma ChunkSizeValue()
    ensures ChunkSize == 705600 && ChunkSize < Two32
  {
  }

  /** Size of the audio data in an AIFC SSND chunk: the chunk size less the
      SSND data offset and the 8-byte offset/blockSize header, computed in
      32-bit unsigned arithmetic. Both inputs are the 32-bit fields as read. */
  function AudioDataSize(ckSize: nat, ssndOffset: nat): (n: nat)
    requires ckSize < Two32 && ssndOffset < Two32
    ensures n < Two32
    ensures ssndOffset + 8 <= ckSize ==> n == ckSize - ssndOffset - 8
    ensures ckSize < ssndOffset + 8 <= Two32 ==> n == Two32 + ckSize - ssndOffset - 8
    ensures (n - (ckSize - ssndOffset - 8)) % Two32 == 0
  {
    (ckSize - ssndOffset - 8) % Two32
  }

  datatype Player = Player(
    connected: bool,                  // mConnected
    renderCallback: bool,             // FileInputProc was installed and not yet removed
    hasNotifier: bool,                // mNotifier != NULL
    playUnit: Option<nat>,            // mPlayUnit: the output unit, None for NULL
    startFrame: int,                  // mStartFrame
    manager: FileManager.Manager)     // *mAudioFileManager

  datatype System = System(player: Player, pool: ReaderThread.Pool, notified: seq<int>)

  /** The largest frame number whose byte offset fits an `int`. */
  const MaxFrame: int := 913045

  /** `frame * 2352`, computed in an `int`, does not overflow (see
      FrameRangeExact). */
  predicate InFrameRange(frame: int) {
    -MaxFrame <= frame <= MaxFrame
  }

  /** The frame range is exactly the frames whose byte offset fits an `int`. */
  lemma FrameRangeExact(frame: int)
    ensures InFrameRange(frame) <==> IsInt32(frame * CdFrameBytes)
  {
    if frame > MaxFrame {
      assert frame * CdFrameBytes >= (MaxFrame + 1) * CdFrameBytes;
    } else if frame < -MaxFrame {
      assert frame * CdFrameBytes <= -(MaxFrame + 1) * CdFrameBytes;
    } else {
      assert -MaxFrame * CdFrameBytes <= frame * CdFrameBytes <= MaxFrame * CdFrameBytes;
    }
  }

  predicate Valid(s: System) {
    && FileManager.Valid(s.player.manager)
    && ReaderThread.Valid(s.pool)
    && InFrameRange(s.player.startFrame)
  }

  /** Replaces the session's file manager. */
  function WithManager(s: System, m: FileManager.Manager): System {
    s.(player := s.player.(manager := m))
  }

  /** The constructor, after OpenFile has found the SSND chunk: the shared
      reader thread is created if there is none yet, and the manager gets
      the audio data size and a 4-second chunk. */
  function NewPlayer(id: ReaderThread.ReaderId, shared: Option<ReaderThread.Pool>,
                     ckSize: nat, ssndOffset: nat): (s: System)
    requires ckSize < Two32 && ssndOffset < Two32
    requires shared.Some? ==> ReaderThread.Valid(shared.value)
    ensures Valid(s)
    ensures !s.player.connected && !s.player.renderCallback && !s.player.hasNotifier
    ensures !s.player.manager.engaged && s.notified == []
    ensures s.player.playUnit == None && s.player.startFrame == 0
    ensures s.player.manager.chunkSize == 705600
    ensures s.player.manager.fileLength == AudioDataSize(ckSize, ssndOffset)
    ensures s.player.manager.bufferOffset == s.player.manager.bufferSize == ChunkSize
    ensures shared.Some? ==> s.pool == shared.value
    ensures shared.None? ==> s.pool == ReaderThread.NewPool()
  {
    var pool := if shared.Some? then shared.value else ReaderThread.NewPool();
    var m := FileManager.NewManager(id, AudioDataSize(ckSize, ssndOffset), ChunkSize);
    System(Player(false, false, false, None, 0, m), pool, [])
  }

  /** SetNotifier: installs or removes the notification callback. */
  function SetNotifier(s: System, present: bool): (r: System)
    ensures r.player.hasNotifier == present
    ensures r == s.(player := s.player.(hasNotifier := present))
  {
    s.(player := s.player.(hasNotifier := present))
  }

  datatype Call = Call(sys: System, outcome: Outcome)

  /** SetDestination: refuses with -1 while connected. Otherwise it stores
      the unit before any check, then returns whether the unit's component
      checks and format setting (`accepted`) succeeded. */
  function SetDestination(s: System, unit: nat, accepted: bool): (r: Call)
    ensures s.player.connected ==> r == Call(s, Thrown(AlreadyEngaged))
    ensures !s.player.connected ==> r.outcome == Returned(if accepted then 1 else 0)
    ensures !s.player.connected ==> r.sys.player.playUnit == Some(unit)
    ensures r.sys.player == s.player.(playUnit := r.sys.player.playUnit)
    ensures r.sys.pool == s.pool && r.sys.notified == s.notified
  {
    if s.player.connected then Call(s, Thrown(AlreadyEngaged))
    else Call(s.(player := s.player.(playUnit := Some(unit))), Returned(if accepted then 1 else 0))
  }

  /** A unit SetDestination turns down still replaces the session's unit. */
  lemma RejectedUnitIsKept(s: System, unit: nat)
    requires !s.player.connected
    ensures var r := SetDestination(s, unit, false);
            r.outcome == Returned(0) && r.sys.player.playUnit == Some(unit)
  {
  }

  /** Disconnect: a no-op when not connected; otherwise the session is
      marked disconnected, its render callback removed (a failure there is
      only logged) and its manager disconnected from the reader thread. */
  function Disconnect(s: System): (r: System)
    ensures !s.player.connected ==> r == s
    ensures s.player.connected ==>
              && !r.player.connected && !r.player.renderCallback
              && r.player.manager == s.player.manager.(engaged := false)
              && r.pool == FileManager.Disconnect(s.player.manager, s.pool).pool
    ensures r.notified == s.notified
    ensures r.player == s.player.(connected := r.player.connected, renderCallback := r.player.renderCallback,
                                  manager := r.player.manager)
    ensures Valid(s) ==> Valid(r)
  {
    if s.player.connected then
      var d := FileManager.Disconnect(s.player.manager, s.pool);
      System(s.player.(connected := false, renderCallback := false, manager := d.m), d.pool, s.notified)
    else s
  }

  /** Disconnecting twice is disconnecting once. */
  lemma DisconnectIdempotent(s: System)
    ensures Disconnect(Disconnect(s)) == Disconnect(s)
  {
  }

  /** Connect: a no-op returning 1 when already connected. Otherwise it
      connects the manager (which throws -1 when the manager is still
      engaged, or the priming read's status), installs the render callback,
      throws the unit's status if that fails, and only then is connected. */
  function Connect(s: System, rd: FileManager.ReadResult, unitStatus: int): (r: Call)
    requires Valid(s)
    requires |rd.data| <= FileManager.RequestSize(s.player.manager)
    ensures Valid(r.sys)
    ensures s.player.connected ==> r == Call(s, Returned(1))
    ensures !s.player.connected && s.player.manager.engaged ==> r == Call(s, Thrown(AlreadyEngaged))
    ensures !s.player.connected ==>
              (r.outcome == Returned(1) <==>
                 !s.player.manager.engaged && rd.status == NoErr && unitStatus == NoErr)
    ensures r.outcome == Returned(1) ==> r.sys.player.connected
    ensures !s.player.connected && r.outcome == Returned(1) ==>
              r.sys.player.renderCallback && r.sys.player.manager.engaged
    ensures !s.player.connected && r.outcome.Thrown? ==> !r.sys.player.connected
    ensures !s.player.connected ==>
              var c := FileManager.DoConnect(s.player.manager, s.pool, rd);
              r.sys.player.manager == c.m && r.sys.pool == c.pool
    ensures r.sys.notified == s.notified
    ensures r.sys.player == s.player.(manager := r.sys.player.manager, connected := r.sys.player.connected,
                                      renderCallback := r.sys.player.renderCallback)
    ensures r.outcome.Thrown? ==> r.sys.player.renderCallback == s.player.renderCallback
                                  && r.sys.player.connected == s.player.connected
  {
    if s.player.connected then Call(s, Returned(1))
    else
      var c := FileManager.DoConnect(s.player.manager, s.pool, rd);
      var s1 := System(s.player.(manager := c.m), c.pool, s.notified);
      if c.outcome.Thrown? then Call(s1, c.outcome)
      else if unitStatus != NoErr then Call(s1, Thrown(unitStatus))
      else Call(s1.(player := s1.player.(renderCallback := true, connected := true)), Returned(1))
  }

  /** A successful connect followed by a disconnect leaves the session
      disconnected, its manager disengaged with no queued request, and the
      reader count where it was. */
  lemma ConnectThenDisconnect(s: System, rd: FileManager.ReadResult)
    requires Valid(s) && !s.player.connected && !s.player.manager.engaged
    requires rd.status == NoErr && |rd.data| <= FileManager.RequestSize(s.player.manager)
    ensures var c := Connect(s, rd, NoErr);
            var d := Disconnect(c.sys);
            && c.outcome == Returned(1)
            && !d.player.connected && !d.player.manager.engaged
            && d.pool.numReaders == s.pool.numReaders
            && s.player.manager.id !in d.pool.queue
  {
    FileManager.ConnectThenDisconnect(s.player.manager, s.pool, rd);
  }

  /** When installing the render callback fails, the manager stays engaged
      while the session is not connected: Disconnect then does nothing and
      every later Connect throws -1. */
  lemma UnitFailureStrandsManager(s: System, rd: FileManager.ReadResult, unitStatus: int,
                                  rd2: FileManager.ReadResult, unitStatus2: int)
    requires Valid(s) && !s.player.connected && !s.player.manager.engaged
    requires rd.status == NoErr && |rd.data| <= FileManager.RequestSize(s.player.manager)
    requires unitStatus != NoErr
    ensures var c := Connect(s, rd, unitStatus);
            var d := Disconnect(c.sys);
            && c.outcome == Thrown(unitStatus)
            && d == c.sys
            && d.player.manager.engaged
            && (|rd2.data| <= FileManager.RequestSize(d.player.manager) ==>
                  Connect(d, rd2, unitStatus2).outcome == Thrown(AlreadyEngaged))
  {
  }

  /** DoNotification: with a notifier the status is forwarded and nothing
      else changes. Without one, every status but underrun disconnects the
      session. */
  function DoNotification(s: System, status: int): (r: System)
    ensures s.player.hasNotifier ==> r == s.(notified := s.notified + [status])
    ensures !s.player.hasNotifier && status == FilePlayUnderrun ==> r == s
    ensures !s.player.hasNotifier && status != FilePlayUnderrun ==> r == Disconnect(s)
    ensures Valid(s) ==> Valid(r)
  {
    if s.player.hasNotifier then s.(notified := s.notified + [status])
    else if status == FileIsFinished then Disconnect(s)
    else if status != FilePlayUnderrun then Disconnect(s)
    else s
  }

  /** Without a notifier, a connected session survives a notification
      exactly when the status is underrun. */
  lemma FallbackDisconnectsUnlessUnderrun(s: System, status: int)
    requires s.player.connected && !s.player.hasNotifier
    ensures DoNotification(s, status).player.connected <==> status == FilePlayUnderrun
  {
  }

  /** SetStartFrame: records the frame and seeks the manager to its byte
      offset, through SetPosition's clamp. */
  function SetStartFrame(s: System, frame: int): (r: System)
    requires InFrameRange(frame)
    ensures r.player.startFrame == frame
    ensures r.player.manager == FileManager.SetPosition(s.player.manager, frame * CdFrameBytes)
    ensures 0 <= frame * CdFrameBytes < s.player.manager.fileLength ==>
              r.player.manager.readPos == frame * CdFrameBytes
    ensures r.player.manager.byteCounter == s.player.manager.byteCounter
    ensures r == s.(player := s.player.(startFrame := frame, manager := r.player.manager))
    ensures Valid(s) ==> Valid(r)
  {
    var position := frame * CdFrameBytes;
    s.(player := s.player.(startFrame := frame,
                           manager := FileManager.SetPosition(s.player.manager, position)))
  }

  /** SetStopFrame: sets the logical end to the frame's byte offset, subject
      to SetEndOfFile's (0, fileLength] check. */
  function SetStopFrame(s: System, frame: int): (r: System)
    requires InFrameRange(frame)
    ensures r.player.manager == FileManager.SetEndOfFile(s.player.manager, frame * CdFrameBytes)
    ensures 0 < frame * CdFrameBytes <= s.player.manager.fileLength ==>
              r.player.manager.fileLength == frame * CdFrameBytes
    ensures r.player.manager.fileLength <= s.player.manager.fileLength
    ensures r == WithManager(s, r.player.manager)
    ensures Valid(s) ==> Valid(r)
  {
    WithManager(s, FileManager.SetEndOfFile(s.player.manager, frame * CdFrameBytes))
  }

  /** GetCurrentFrame: the start frame plus the whole frames the byte counter
      holds (C++ `int` division). The result always fits an `int`. */
  function GetCurrentFrame(s: System): (f: int)
    requires InFrameRange(s.player.startFrame) && IsInt32(s.player.manager.byteCounter)
    ensures IsInt32(f)
    ensures var c := s.player.manager.byteCounter;
            var k := f - s.player.startFrame;
            && (0 <= c ==> k * CdFrameBytes <= c < (k + 1) * CdFrameBytes)
            && (c < 0 ==> (k - 1) * CdFrameBytes < c <= k * CdFrameBytes)
  {
    FrameRangeExact(s.player.startFrame);
    s.player.startFrame + TruncDiv(s.player.manager.byteCounter, CdFrameBytes)
  }

  /** Seeking does not touch the byte counter, so right after a seek the
      reported frame is the new start frame plus every frame streamed
      before it. */
  lemma SeekKeepsStreamedFrames(s: System, frame: int)
    requires Valid(s) && InFrameRange(frame)
    ensures GetCurrentFrame(SetStartFrame(s, frame)) - frame == GetCurrentFrame(s) - s.player.startFrame
  {
  }
}

=== FILE: platform.dfy ===
/** Machine-level vocabulary of the CD-audio streaming core: the OSStatus
    values it produces or tests, the fixed-width conversions its C++ integer
    types perform, and the compact-disc frame stride. */
module Platform {

  /** OSStatus values the core produces or tests. */
  const NoErr: int := 0
  const EofErr: int := -39
  /** Thrown by DoConnect and SetDestination when the object is already engaged. */
  const AlreadyEngaged: int := -1
  const FilePlayUnderrun: int := -10000
  const FileIsFinished: int := -10001

  /** Bytes per compact-disc audio frame: one Red Book CD-DA sector (IEC 60908). */
  const CdFrameBytes: nat := 2352

  const Two31: int := 0x8000_0000
  const Two32: int := 0x1_0000_0000
  const Two64: int := 0x1_0000_0000_0000_0000

  type Byte = b: int | 0 <= b < 256

  datatype Option<+T> = None | Some(value: T)

  /** How a C++ member function left: with a returned value or a thrown OSStatus. */
  datatype Outcome = Returned(value: int) | Thrown(status: int)

  predicate IsInt32(x: int) {
    -Two31 <= x < Two31
  }

  /** The value a 32-bit two's-complement `int` holds after being assigned `x`. */
  function WrapInt32(x: int): (r: int)
    ensures IsInt32(r)
    ensures (x - r) % Two32 == 0
    ensures IsInt32(x) ==> r == x
  {
    var m := x % Two32;
    if m < Two31 then m else m - Two32
  }

  /** The value an unsigned 64-bit `ByteCount` holds after being assigned `x`. */
  function ToUInt64(x: int): (r: nat)
    ensures r < Two64
    ensures 0 <= x < Two64 ==> r == x
    ensures -Two64 <= x < 0 ==> r == x + Two64
  {
    x % Two64
  }

  /** C++ `/` on signed integers: the quotient truncated toward zero. */
  function TruncDiv(a: int, b: int): (q: int)
    requires b > 0
    ensures 0 <= a ==> 0 <= a - q * b < b
    ensures a < 0 ==> -b < a - q * b <= 0
  {
    if a >= 0 then a / b else -((-a) / b)
  }

  /** `n` zero bytes, as `memset(p, 0, n)` stores them. */
  function Zeros(n: nat): (z: seq<Byte>)
    ensures |z| == n
    ensures forall i :: 0 <= i < n ==> z[i] == 0
  {
    seq(n, _ => 0)
  }

  /** Two integers congruent modulo 2^32 wrap to the same `int`. */
  lemma WrapInt32Congruent(x: int, y: int)
    requires (x - y) % Two32 == 0
    ensures WrapInt32(x) == WrapInt32(y)
  {
    var k := (x - y) / Two32;
    assert x == y + k * Two32;
    assert x % Two32 == y % Two32;
  }

  /** Adding to a wrapped `int` and wrapping again is one wrapped addition:
      a running 32-bit counter equals the wrapped exact total. */
  lemma {:induction false} WrapInt32Add(a: int, b: int)
    ensures WrapInt32(WrapInt32(a) + b) == WrapInt32(a + b)
  {
    var w := WrapInt32(a);
    assert ((w + b) - (a + b)) % Two32 == 0 by {
      assert (a - w) % Two32 == 0;
    }
    WrapInt32Congruent(w + b, a + b);
  }
}

=== FILE: reader_thread.dfy ===
/** The process-wide background reader (class FileReaderThread): a FIFO of
    pending read requests, the number of registered readers, and the flag
    that tells the worker thread to exit.

    Locking is abstracted away: the outcome of each non-blocking try-lock
    arrives as a boolean, a blocking lock is taken to succeed, and waiting on
    the condition variable is a point where other threads may change the
    pool before the worker looks at it again. */
module ReaderThread {
  import opened Platform

  /** Identity of an AudioFileManager: the pointer the queue stores. */
  type ReaderId = nat

  datatype Pool = Pool(
    queue: seq<ReaderId>,   // mFileData, head first
    numReaders: nat,        // mNumReaders
    shouldDie: bool)        // mThreadShouldDie

  /** The worker is told to exit only while no reader is registered. */
  predicate Valid(p: Pool) {
    p.numReaders > 0 ==> !p.shouldDie
  }

  /** The constructor's field initialisation. */
  function NewPool(): (p: Pool)
    ensures Valid(p) && p.queue == [] && p.numReaders == 0 && !p.shouldDie
  {
    Pool([], 0, false)
  }

  /** The queue with every entry for `item` unlinked (the walk in RemoveReader). */
  function Without(q: seq<ReaderId>, item: ReaderId): (r: seq<ReaderId>)
    ensures item !in r
    ensures multiset(r) == multiset(q)[item := 0]
    ensures IsSubseq(r, q)
  {
    if q == [] then []
    else
      assert q == [q[0]] + q[1..];
      if q[0] == item then Without(q[1..], item)
      else [q[0]] + Without(q[1..], item)
  }

  /** `a` is `b` with some entries deleted and the rest in their original order. */
  ghost predicate IsSubseq(a: seq<ReaderId>, b: seq<ReaderId>)
    decreases |b|
  {
    a == [] || (b != [] && ((a[0] == b[0] && IsSubseq(a[1..], b[1..])) || IsSubseq(a, b[1..])))
  }

  /** The linked-list walk of RemoveReader: keep every node whose reader is
      not `item`, relinking around the ones that are. */
  method RemoveEntries(q: seq<ReaderId>, item: ReaderId) returns (kept: seq<ReaderId>)
    ensures kept == Without(q, item)
  {
    kept := [];
    var i := 0;
    while i < |q|
      invariant 0 <= i <= |q|
      invariant kept + Without(q[i..], item) == Without(q, item)
    {
      WithoutFrom(q, i, item);
      if q[i] != item {
        kept := kept + [q[i]];
      }
      i := i + 1;
    }
  }

  /** One step of the walk: the entry at `i` is kept or dropped, then the
      rest is unlinked. */
  lemma WithoutFrom(q: seq<ReaderId>, i: nat, item: ReaderId)
    requires i < |q|
    ensures Without(q[i..], item) == (if q[i] == item then [] else [q[i]]) + Without(q[i + 1..], item)
  {
    assert q[i..][1..] == q[i + 1..];
  }

  lemma {:induction false} WithoutAbsent(q: seq<ReaderId>, item: ReaderId)
    requires item !in q
    ensures Without(q, item) == q
  {
    if q != [] {
      WithoutAbsent(q[1..], item);
    }
  }

  datatype Enqueue = Enqueue(pool: Pool, succeeded: int)

  /** TryNextRead: on a successful try-lock the reader goes to the tail of
      the queue and the result is 1; otherwise nothing changes and it is 0. */
  function TryNextRead(p: Pool, item: ReaderId, locked: bool): (r: Enqueue)
    ensures locked ==> r.succeeded == 1 && r.pool == p.(queue := p.queue + [item])
    ensures !locked ==> r.succeeded == 0 && r.pool == p
  {
    if locked then Enqueue(p.(queue := p.queue + [item]), 1) else Enqueue(p, 0)
  }

  /** True when AddReader starts the worker thread (the 0 -> 1 transition). */
  predicate StartsWorker(p: Pool) {
    p.numReaders == 0
  }

  /** AddReader: clears should-die only when the first reader registers, and
      always counts the new reader. */
  function AddReader(p: Pool): (r: Pool)
    ensures r.numReaders == p.numReaders + 1
    ensures r.queue == p.queue
    ensures StartsWorker(p) ==> !r.shouldDie
    ensures !StartsWorker(p) ==> r.shouldDie == p.shouldDie
    ensures Valid(p) ==> Valid(r)
  {
    var q := if p.numReaders == 0 then p.(shouldDie := false) else p;
    q.(numReaders := q.numReaders + 1)
  }

  /** RemoveReader: with no reader registered it does nothing; otherwise it
      unlinks every queued request of `item`, uncounts one reader and tells
      the worker to exit when the count reaches zero. */
  function RemoveReader(p: Pool, item: ReaderId): (r: Pool)
    ensures p.numReaders == 0 ==> r == p
    ensures p.numReaders > 0 ==> r.numReaders == p.numReaders - 1
    ensures p.numReaders > 0 ==> item !in r.queue
    ensures p.numReaders > 0 ==> multiset(r.queue) == multiset(p.queue)[item := 0]
    ensures p.numReaders > 0 ==> IsSubseq(r.queue, p.queue)
    ensures p.numReaders > 0 ==> (r.shouldDie <==> r.numReaders == 0 || p.shouldDie)
    ensures Valid(p) ==> Valid(r)
  {
    if p.numReaders > 0 then
      var n := p.numReaders - 1;
      Pool(Without(p.queue, item), n, if n == 0 then true else p.shouldDie)
    else p
  }

  /** In a valid pool, removing a reader tells the worker to exit exactly
      when it was the last one. */
  lemma LastRemovalStopsWorker(p: Pool, item: ReaderId)
    requires Valid(p) && p.numReaders > 0
    ensures RemoveReader(p, item).shouldDie <==> p.numReaders == 1
  {
  }

  /** Registering and then removing a reader that has no queued request
      restores the pool, except that the worker is told to exit when the
      pool is empty again. */
  lemma AddThenRemove(p: Pool, item: ReaderId)
    requires Valid(p) && item !in p.queue
    ensures RemoveReader(AddReader(p), item) == p.(shouldDie := p.numReaders == 0)
  {
    WithoutAbsent(p.queue, item);
  }

  /** What the worker does under the lock before it would block: the
      should-die test, then the wait while the queue is empty. */
  datatype Phase = Exit | Wait | Proceed

  function BeforeWait(p: Pool): (r: Phase)
    ensures r == Exit <==> p.shouldDie
    ensures r == Wait <==> !p.shouldDie && p.queue == []
  {
    if p.shouldDie then Exit else if p.queue == [] then Wait else Proceed
  }

  /** The dequeue in ReadNextChunk, on the pool as the worker finds it after
      any wait: exit when told to, otherwise pop the head. An empty queue
      yields no item (the source then dereferences the NULL item). */
  datatype Take = Quit | Took(item: Option<ReaderId>, pool: Pool)

  function TakeHead(p: Pool): (r: Take)
    ensures r.Quit? <==> p.shouldDie
    ensures r.Took? ==> r.pool.numReaders == p.numReaders && r.pool.shouldDie == p.shouldDie
    ensures r.Took? ==> (r.item.Some? <==> p.queue != [])
    ensures r.Took? && r.item.Some? ==> p.queue == [r.item.value] + r.pool.queue
    ensures r.Took? && r.item.None? ==> r.pool == p
  {
    if p.shouldDie then Quit
    else if p.queue == [] then Took(None, p)
    else Took(Some(p.queue[0]), p.(queue := p.queue[1..]))
  }

  /** The readers the worker serves, in order, if it keeps taking requests
      with no new enqueue until none is left. */
  function ServiceOrder(p: Pool): seq<ReaderId>
    decreases |p.queue|
  {
    match TakeHead(p)
    case Took(Some(x), rest) => [x] + ServiceOrder(rest)
    case _ => []
  }

  /** The worker serves pending requests in queue order. */
  lemma {:induction false} ServedInQueueOrder(p: Pool)
    requires !p.shouldDie
    ensures ServiceOrder(p) == p.queue
    decreases |p.queue|
  {
    match TakeHead(p)
    case Took(Some(x), rest) =>
      ServedInQueueOrder(rest);
    case _ =>
  }

  /** A run of TryNextRead calls, each with its own try-lock outcome. */
  function EnqueueAttempts(p: Pool, items: seq<ReaderId>, locks: seq<bool>): Pool
    requires |items| == |locks|
    decreases |items|
  {
    if items == [] then p
    else EnqueueAttempts(TryNextRead(p, items[0], locks[0]).pool, items[1..], locks[1..])
  }

  /** The attempts whose try-lock succeeded, in order. */
  function Accepted(items: seq<ReaderId>, locks: seq<bool>): seq<ReaderId>
    requires |items| == |locks|
    decreases |items|
  {
    if items == [] then []
    else (if locks[0] then [items[0]] else []) + Accepted(items[1..], locks[1..])
  }

  lemma {:induction false} EnqueueAttemptsAppend(p: Pool, items: seq<ReaderId>, locks: seq<bool>)
    requires |items| == |locks|
    ensures EnqueueAttempts(p, items, locks) == p.(queue := p.queue + Accepted(items, locks))
    decreases |items|
  {
    if items != [] {
      var p1 := TryNextRead(p, items[0], locks[0]).pool;
      EnqueueAttemptsAppend(p1, items[1..], locks[1..]);
      var a := if locks[0] then [items[0]] else [];
      assert p1.queue == p.queue + a;
      assert (p.queue + a) + Accepted(items[1..], locks[1..]) == p.queue + Accepted(items, locks);
    }
  }

  /** FIFO service: after any run of enqueue attempts, the worker serves the
      requests already pending and then exactly the accepted ones, in the
      order they were enqueued. */
  lemma ServedInEnqueueOrder(p: Pool, items: seq<ReaderId>, locks: seq<bool>)
    requires |items| == |locks| && !p.shouldDie
    ensures ServiceOrder(EnqueueAttempts(p, items, locks)) == p.queue + Accepted(items, locks)
  {
    EnqueueAttemptsAppend(p, items, locks);
    ServedInQueueOrder(EnqueueAttempts(p, items, locks));
  }
}

=== FILE: render_path.dfy ===
/** The file manager's operations that reach back into the owning player:
    GetFileData and AfterRender, which post notifications from the render
    path, Render, which drives both for each output buffer, and the worker's
    service of one dequeued request, which posts read errors. */
module RenderPath {
  import opened Platform
  import ReaderThread
  import FileManager
  import opened FilePlayer

  /** What GetFileData hands back: the session after the call, and the chunk
      it returns (an offset into the manager's buffer, None for NULL). */
  datatype Fetch = Fetch(sys: System, data: Option<nat>, size: nat)

  /** GetFileData. A finished reader returns no data, counts the request
      and changes nothing else. Otherwise, when the read and write flags
      agree no new half is ready: the player is notified of the underrun and
      no data is returned; when they differ the half named by the read flag
      is returned whole. Either way the reader asks to be queued for the
      next fill, remembers whether that failed, and flips its read flag. */
  function GetFileData(s: System, lockOk: bool): (r: Fetch)
    requires Valid(s)
    ensures Valid(r.sys)
    ensures var m := s.player.manager;
            m.finished ==>
              && r.data == None && r.size == 0
              && r.sys == WithManager(s, m.(askedSinceFinished := m.askedSinceFinished + 1))
    ensures var m := s.player.manager;
            !m.finished && m.readFromFirst == m.writeToFirst ==>
              && r.data == None && r.size == 0
              && r.sys.notified == s.notified + (if s.player.hasNotifier then [FilePlayUnderrun] else [])
    ensures var m := s.player.manager;
            !m.finished && m.readFromFirst != m.writeToFirst ==>
              && r.data == Some(FileManager.HalfBase(m, m.readFromFirst))
              && r.size == m.chunkSize
              && r.sys.notified == s.notified
    ensures var m := s.player.manager;
            !m.finished ==>
              && r.sys.pool == ReaderThread.TryNextRead(s.pool, m.id, lockOk).pool
              && r.sys.player == s.player.(manager := m.(lockUnsuccessful := !lockOk,
                                                         readFromFirst := !m.readFromFirst))
  {
    var m := s.player.manager;
    if m.finished then
      Fetch(WithManager(s, m.(askedSinceFinished := m.askedSinceFinished + 1)), None, 0)
    else
      var underrun := m.readFromFirst == m.writeToFirst;
      var s1 := if underrun then DoNotification(s, FilePlayUnderrun) else s;
      var e := ReaderThread.TryNextRead(s1.pool, m.id, lockOk);
      var m1 := s1.player.manager;
      var s2 := WithManager(s1.(pool := e.pool),
                            m1.(lockUnsuccessful := e.succeeded == 0, readFromFirst := !m1.readFromFirst));
      if underrun then Fetch(s2, None, 0)
      else Fetch(s2, Some(if m.readFromFirst then 0 else m.chunkSize), m.chunkSize)
  }

  /** The half GetFileData hands out is never the half the worker fills next. */
  lemma DeliveredHalfIsNotFillTarget(s: System, lockOk: bool)
    requires Valid(s) && s.player.manager.chunkSize > 0
    ensures var m := s.player.manager;
            var r := GetFileData(s, lockOk);
            r.data.Some? ==> r.data.value != FileManager.HalfBase(m, m.writeToFirst)
  {
  }

  /** With the worker idle, the read flag's flip on an underrun makes the
      next request hand out the half delivered before the underrun again,
      and every unfinished request queues the reader once more. */
  lemma UnderrunReplaysDeliveredHalf(s: System)
    requires Valid(s)
    requires !s.player.manager.finished
    requires s.player.manager.readFromFirst != s.player.manager.writeToFirst
    ensures var f1 := GetFileData(s, true);
            var f2 := GetFileData(f1.sys, true);
            var f3 := GetFileData(f2.sys, true);
            var id := s.player.manager.id;
            && f1.data.Some? && f2.data == None && f3.data == f1.data
            && f3.sys.pool.queue == s.pool.queue + [id, id, id]
  {
    var f1 := GetFileData(s, true);
    var f2 := GetFileData(f1.sys, true);
    var f3 := GetFileData(f2.sys, true);
    assert f3.sys.pool.queue == s.pool.queue + [s.player.manager.id] + [s.player.manager.id]
                                             + [s.player.manager.id];
  }

  /** AfterRender. While the asked counter is positive, each call whose
      try-lock succeeds notifies the player that the file is finished; then
      a failed enqueue is retried. The rendering state is untouched. */
  function AfterRender(s: System, notifyLock: bool, retryLock: bool): (r: System)
    requires Valid(s)
    ensures Valid(r)
    ensures var m := s.player.manager;
            var n := r.player.manager;
            && n.bufferOffset == m.bufferOffset && n.bufferSize == m.bufferSize
            && n.tmpBuffer == m.tmpBuffer && n.byteCounter == m.byteCounter
            && n.chunkSize == m.chunkSize && n.readFromFirst == m.readFromFirst
            && n.id == m.id
    ensures var s1 := if s.player.manager.askedSinceFinished > 0 && notifyLock
                      then DoNotification(s, FileIsFinished) else s;
            var m1 := s1.player.manager;
            && r.player == s1.player.(manager := m1.(lockUnsuccessful := r.player.manager.lockUnsuccessful))
            && r.notified == s1.notified
            && r.pool == (if m1.lockUnsuccessful then ReaderThread.TryNextRead(s1.pool, m1.id, retryLock).pool
                          else s1.pool)
  {
    var s1 := if s.player.manager.askedSinceFinished > 0 && notifyLock
              then DoNotification(s, FileIsFinished) else s;
    var m := s1.player.manager;
    if m.lockUnsuccessful then
      var e := ReaderThread.TryNextRead(s1.pool, m.id, retryLock);
      WithManager(s1.(pool := e.pool), m.(lockUnsuccessful := e.succeeded == 0))
    else s1
  }

  /** AfterRender's finish notification: it is posted exactly when the
      asked counter is positive and the try-lock succeeds and a notifier is
      installed. */
  lemma AfterRenderNotifies(s: System, notifyLock: bool, retryLock: bool)
    requires Valid(s)
    ensures var notify := s.player.manager.askedSinceFinished > 0 && notifyLock;
            AfterRender(s, notifyLock, retryLock).notified
              == s.notified + (if notify && s.player.hasNotifier then [FileIsFinished] else [])
  {
    if s.player.manager.askedSinceFinished > 0 && notifyLock {
      assert DoNotification(s, FileIsFinished).notified
               == s.notified + (if s.player.hasNotifier then [FileIsFinished] else []);
    }
  }

  /** Without a notifier, the finish notification disconnects the session
      instead; when no notification is due, connection and engagement are
      unchanged. */
  lemma AfterRenderDisconnects(s: System, notifyLock: bool, retryLock: bool)
    requires Valid(s)
    ensures var r := AfterRender(s, notifyLock, retryLock);
            var notify := s.player.manager.askedSinceFinished > 0 && notifyLock;
            && (notify && !s.player.hasNotifier ==> !r.player.connected)
            && (notify && !s.player.hasNotifier && s.player.connected ==> !r.player.manager.engaged)
            && (!notify ==> r.player.connected == s.player.connected
                            && r.player.manager.engaged == s.player.manager.engaged)
  {
    if s.player.manager.askedSinceFinished > 0 && notifyLock && !s.player.hasNotifier {
      assert DoNotification(s, FileIsFinished) == Disconnect(s);
    }
  }

  /** AfterRender's retry: a failed enqueue is retried and remembered as
      failed again only if the retry fails too; a successful retry puts the
      reader at the tail of the queue. */
  lemma AfterRenderRetries(s: System, notifyLock: bool, retryLock: bool)
    requires Valid(s)
    ensures var r := AfterRender(s, notifyLock, retryLock);
            && (s.player.manager.lockUnsuccessful ==> r.player.manager.lockUnsuccessful == !retryLock)
            && (!s.player.manager.lockUnsuccessful ==> !r.player.manager.lockUnsuccessful)
            && (s.player.manager.lockUnsuccessful && retryLock ==>
                  r.pool.queue != [] && r.pool.queue[|r.pool.queue| - 1] == s.player.manager.id)
            && (s.player.manager.lockUnsuccessful && retryLock
                && (s.player.hasNotifier || !(s.player.manager.askedSinceFinished > 0 && notifyLock)) ==>
                  r.pool.queue == s.pool.queue + [s.player.manager.id])
            && (!s.player.manager.lockUnsuccessful
                && (s.player.hasNotifier || !(s.player.manager.askedSinceFinished > 0 && notifyLock)) ==>
                  r.pool == s.pool)
  {
  }

  /** Once the reader is finished and has been asked again, every
      AfterRender whose try-lock succeeds notifies the player again. */
  lemma FinishedNotifiedOnEveryRender(s: System)
    requires Valid(s) && s.player.hasNotifier && s.player.manager.askedSinceFinished > 0
    ensures AfterRender(AfterRender(s, true, false), true, false).notified
            == s.notified + [FileIsFinished, FileIsFinished]
  {
  }

  /** Without a notifier, the finish notification disconnects the session,
      and the retry that follows can queue the now unregistered reader again. */
  lemma RetryQueuesDisconnectedReader(s: System)
    requires Valid(s) && !s.player.hasNotifier && s.player.connected
    requires s.player.manager.engaged && s.player.manager.askedSinceFinished > 0
    requires s.player.manager.lockUnsuccessful
    ensures var r := AfterRender(s, true, true);
            && !r.player.connected && !r.player.manager.engaged
            && s.player.manager.id in r.pool.queue
  {
  }

  /** One output buffer descriptor as Render leaves it: where its data
      starts in the manager's buffer (None for NULL) and its byte size. */
  datatype Slice = Slice(start: Option<nat>, size: nat)

  /** The try-lock outcomes one loop iteration of Render may need: the
      enqueue in GetFileData, and the notification and retry in AfterRender. */
  datatype Tries = Tries(fetch: bool, notify: bool, retry: bool)

  datatype Filled = Filled(sys: System, slice: Slice)

  /** The slice lies inside the two halves of a `chunk`-byte double buffer. */
  predicate InBuffer(sl: Slice, chunk: nat) {
    sl.size > 0 ==> sl.start.Some? && sl.start.value + sl.size <= 2 * chunk
  }

  /** The top of Render's loop body: when the current chunk is used up,
      GetFileData supplies the next one and rendering restarts at offset 0;
      otherwise nothing changes. */
  function NextChunk(s: System, lockOk: bool): (r: System)
    requires Valid(s)
    ensures Valid(r)
    ensures var m := s.player.manager;
            var n := r.player.manager;
            && n.chunkSize == m.chunkSize && n.byteCounter == m.byteCounter
            && (m.bufferOffset < m.bufferSize ==> r == s)
            && (m.bufferOffset >= m.bufferSize ==>
                  var f := GetFileData(s, lockOk);
                  && n.tmpBuffer == f.data && n.bufferSize == f.size && n.bufferOffset == 0
                  && r == WithManager(f.sys, f.sys.player.manager.(tmpBuffer := f.data, bufferSize := f.size,
                                                                   bufferOffset := 0)))
  {
    var m := s.player.manager;
    if m.bufferOffset >= m.bufferSize then
      var f := GetFileData(s, lockOk);
      var fm := f.sys.player.manager;
      assert fm.chunkSize == m.chunkSize && fm.byteCounter == m.byteCounter;
      assert f.size <= m.chunkSize && (f.size > 0 ==> f.data.Some?);
      assert f.data.Some? ==> f.data.value == 0 || f.data.value == m.chunkSize;
      WithManager(f.sys, fm.(tmpBuffer := f.data, bufferSize := f.size, bufferOffset := 0))
    else s
  }

  /** The part of the current chunk the next output buffer gets: at most
      what is left of the chunk, starting at the current offset. */
  function SliceOf(m: FileManager.Manager, request: nat): (sl: Slice)
    requires FileManager.Valid(m)
    ensures sl.size <= request && sl.size <= m.bufferSize - m.bufferOffset
    ensures sl.size < request ==> sl.size == m.bufferSize - m.bufferOffset
    ensures InBuffer(sl, m.chunkSize)
    ensures m.bufferOffset < m.bufferSize ==> sl.start == Some(m.tmpBuffer.value + m.bufferOffset)
  {
    var n := if request > m.bufferSize - m.bufferOffset then m.bufferSize - m.bufferOffset else request;
    Slice(if m.tmpBuffer.Some? then Some(m.tmpBuffer.value + m.bufferOffset) else None, n)
  }

  /** The rest of the loop body before AfterRender: the buffer gets its
      slice of the chunk, and the offset and byte counter advance by its size. */
  function Deliver(s: System, request: nat): (r: Filled)
    requires Valid(s)
    ensures Valid(r.sys)
    ensures r.slice == SliceOf(s.player.manager, request)
    ensures r.sys == WithManager(s, s.player.manager.(
                       bufferOffset := s.player.manager.bufferOffset + r.slice.size,
                       byteCounter := WrapInt32(s.player.manager.byteCounter + r.slice.size)))
  {
    var m := s.player.manager;
    var sl := SliceOf(m, request);
    var n := m.(bufferOffset := m.bufferOffset + sl.size, byteCounter := WrapInt32(m.byteCounter + sl.size));
    assert FileManager.Valid(n);
    Filled(WithManager(s, n), sl)
  }

  /** Without a fetch, a buffer continues the current chunk where the last
      one stopped; with a fetch, it starts the chunk GetFileData returned at
      offset 0. (AfterRender, which ends the iteration, leaves these fields
      alone.) */
  lemma ChunkContinuesOrRestarts(s: System, request: nat, lockOk: bool)
    requires Valid(s)
    ensures var m := s.player.manager;
            var d := Deliver(NextChunk(s, lockOk), request);
            var n := d.sys.player.manager;
            && (m.bufferOffset < m.bufferSize ==>
                  && d.slice.start == Some(m.tmpBuffer.value + m.bufferOffset)
                  && n.readFromFirst == m.readFromFirst
                  && n.bufferSize == m.bufferSize
                  && n.bufferOffset == m.bufferOffset + d.slice.size
                  && d.slice.size == (if request < m.bufferSize - m.bufferOffset then request
                                      else m.bufferSize - m.bufferOffset))
            && (m.bufferOffset >= m.bufferSize ==>
                  var f := GetFileData(s, lockOk);
                  && n.tmpBuffer == f.data && n.bufferSize == f.size
                  && n.bufferOffset == d.slice.size
                  && d.slice.size == (if request < f.size then request else f.size))
  {
  }

  /** One iteration of Render's loop: NextChunk, Deliver, then AfterRender. */
  function Step(s: System, request: nat, t: Tries): (r: Filled)
    requires Valid(s)
    ensures Valid(r.sys)
  {
    var d := Deliver(NextChunk(s, t.fetch), request);
    Filled(AfterRender(d.sys, t.notify, t.retry), d.slice)
  }

  function Min(a: nat, b: nat): nat {
    if a < b then a else b
  }

  /** The bytes of the current chunk still to be rendered once the top of
      the loop has fetched a new chunk if the old one was used up. */
  function Left(s: System, lockOk: bool): nat
    requires Valid(s)
  {
    var n := NextChunk(s, lockOk).player.manager;
    n.bufferSize - n.bufferOffset
  }

  /** What one iteration hands its buffer: the smaller of the buffer's size
      and what is left of the chunk, taken where the last buffer stopped, or
      from the start of the chunk GetFileData returned when the old one was
      used up. The byte counter grows by the same amount. */
  lemma StepDelivers(s: System, request: nat, t: Tries)
    requires Valid(s)
    ensures var m := s.player.manager;
            var r := Step(s, request, t);
            var n := r.sys.player.manager;
            && r.slice.size == Min(request, Left(s, t.fetch))
            && (m.bufferOffset < m.bufferSize ==>
                  && r.slice.size == Min(request, m.bufferSize - m.bufferOffset)
                  && r.slice.start == Some(m.tmpBuffer.value + m.bufferOffset))
            && (m.bufferOffset >= m.bufferSize ==>
                  var f := GetFileData(s, t.fetch);
                  && r.slice.size == Min(request, f.size)
                  && (r.slice.size > 0 ==> r.slice.start == f.data))
            && InBuffer(r.slice, m.chunkSize)
            && n.chunkSize == m.chunkSize
            && n.byteCounter == WrapInt32(m.byteCounter + r.slice.size)
  {
  }

  /** `trace` and `out` record the first |out| iterations of Render's loop:
      `trace[k]` is the session before buffer k and `trace[k + 1]` the one
      after it, and `out[k]` is what buffer k got, namely the smaller of its
      size and what was left of the chunk after the fetch at step k. */
  ghost predicate Follows(requests: seq<nat>, tries: seq<Tries>, trace: seq<System>, out: seq<Slice>) {
    && |out| <= |requests| && |out| <= |tries| && |trace| == |out| + 1
    && (forall k {:trigger Valid(trace[k])} :: 0 <= k < |out| ==> Valid(trace[k]))
    && (forall k {:trigger Step(trace[k], requests[k], tries[k])} :: 0 <= k < |out| ==>
          Step(trace[k], requests[k], tries[k]) == Filled(trace[k + 1], out[k]))
    && (forall k {:trigger Left(trace[k], tries[k].fetch)} :: 0 <= k < |out| ==>
          out[k].size == Min(requests[k], Left(trace[k], tries[k].fetch)))
  }

  /** A recorded run extends by one iteration. */
  lemma FollowsExtend(requests: seq<nat>, tries: seq<Tries>, trace: seq<System>, out: seq<Slice>, r: Filled)
    requires Follows(requests, tries, trace, out) && |out| < |requests| && |out| < |tries|
    requires Valid(trace[|out|])
    requires r == Step(trace[|out|], requests[|out|], tries[|out|])
    ensures Follows(requests, tries, trace + [r.sys], out + [r.slice])
  {
    StepDelivers(trace[|out|], requests[|out|], tries[|out|]);
    var trace', out' := trace + [r.sys], out + [r.slice];
    forall k | 0 <= k < |out'|
      ensures Valid(trace'[k])
      ensures Step(trace'[k], requests[k], tries[k]) == Filled(trace'[k + 1], out'[k])
      ensures out'[k].size == Min(requests[k], Left(trace'[k], tries[k].fetch))
    {
      if k < |out| {
        assert trace'[k] == trace[k] && trace'[k + 1] == trace[k + 1] && out'[k] == out[k];
        assert Valid(trace[k]);
      }
    }
  }

  /** What a recorded run of Render's loop adds up to: every buffer got at
      most its request, inside the double buffer; the chunk size never
      changed; and the byte counter has grown by the bytes handed out,
      modulo the 32-bit `int`. */
  ghost predicate Tally(requests: seq<nat>, trace: seq<System>, out: seq<Slice>) {
    && |out| <= |requests| && |trace| == |out| + 1
    && (forall k :: 0 <= k < |trace| ==> trace[k].player.manager.chunkSize == trace[0].player.manager.chunkSize)
    && (forall k :: 0 <= k < |out| ==>
          out[k].size <= requests[k] && InBuffer(out[k], trace[0].player.manager.chunkSize))
    && trace[|out|].player.manager.byteCounter
         == WrapInt32(trace[0].player.manager.byteCounter + Delivered(out))
  }

  /** The tally extends by one buffer that got at most its request, inside
      the double buffer, with the counter advanced by its size. */
  lemma TallyExtend(requests: seq<nat>, trace: seq<System>, out: seq<Slice>, next: System, sl: Slice)
    requires Tally(requests, trace, out) && |out| < |requests|
    requires sl.size <= requests[|out|] && InBuffer(sl, trace[0].player.manager.chunkSize)
    requires next.player.manager.chunkSize == trace[0].player.manager.chunkSize
    requires next.player.manager.byteCounter == WrapInt32(trace[|out|].player.manager.byteCounter + sl.size)
    ensures Tally(requests, trace + [next], out + [sl])
  {
    var out' := out + [sl];
    assert out'[..|out|] == out;
    CounterStep(trace[0].player.manager.byteCounter, trace[|out|].player.manager.byteCounter,
                next.player.manager.byteCounter, Delivered(out), sl.size);
  }

  /** One iteration of Render's loop, for buffer |out|, on the session
      `s == trace[|out|]` the earlier iterations left: the buffer gets the
      smaller of its size and what is left of the chunk (after a fetch if
      the old chunk was used up), inside the double buffer, and the byte
      counter grows by what it got. */
  method RenderBuffer(s: System, requests: seq<nat>, tries: seq<Tries>, ghost trace: seq<System>, out: seq<Slice>)
    returns (r: Filled)
    requires Follows(requests, tries, trace, out) && |out| < |requests| && |out| < |tries|
    requires s == trace[|out|] && Valid(s)
    ensures Follows(requests, tries, trace + [r.sys], out + [r.slice])
    ensures Valid(r.sys)
    ensures var m := s.player.manager;
            var n := r.sys.player.manager;
            && r.slice.size <= requests[|out|]
            && InBuffer(r.slice, m.chunkSize)
            && n.chunkSize == m.chunkSize
            && n.byteCounter == WrapInt32(m.byteCounter + r.slice.size)
  {
    var t := tries[|out|];
    var d := Deliver(NextChunk(s, t.fetch), requests[|out|]);
    r := Filled(AfterRender(d.sys, t.notify, t.retry), d.slice);
    StepDelivers(s, requests[|out|], t);
    FollowsExtend(requests, tries, trace, out, r);
  }

  /** Total bytes handed out in `out`. */
  function Delivered(out: seq<Slice>): nat {
    if out == [] then 0 else Delivered(out[..|out| - 1]) + out[|out| - 1].size
  }

  /** Two successive wrapped additions to the counter are one wrapped
      addition of the sum. */
  lemma CounterStep(c0: int, c1: int, c2: int, a: int, b: int)
    requires c1 == WrapInt32(c0 + a) && c2 == WrapInt32(c1 + b)
    ensures c2 == WrapInt32(c0 + (a + b))
  {
    WrapInt32Add(c0 + a, b);
  }

  /** Render: fills each output buffer in turn, one RenderBuffer iteration
      per buffer, recorded in `trace` (see Follows): each buffer gets the
      smaller of its size and what is left of the chunk after the fetch at
      its step, all of it inside the double buffer, and the byte counter
      grows by exactly the bytes handed out, modulo the 32-bit `int`.
      GetFileData always succeeds, so Render always returns noErr. */
  method Render(s: System, requests: seq<nat>, tries: seq<Tries>)
    returns (sys: System, out: seq<Slice>, ghost trace: seq<System>)
    requires Valid(s)
    requires |tries| == |requests|
    ensures Valid(sys)
    ensures |out| == |requests| && Follows(requests, tries, trace, out)
    ensures trace[0] == s && trace[|requests|] == sys
    ensures forall i :: 0 <= i < |out| ==> out[i].size <= requests[i]
    ensures forall i :: 0 <= i < |out| ==> InBuffer(out[i], s.player.manager.chunkSize)
    ensures sys.player.manager.chunkSize == s.player.manager.chunkSize
    ensures sys.player.manager.byteCounter == WrapInt32(s.player.manager.byteCounter + Delivered(out))
    ensures IsInt32(s.player.manager.byteCounter + Delivered(out)) ==>
              sys.player.manager.byteCounter == s.player.manager.byteCounter + Delivered(out)
  {
    sys, out, trace := s, [], [s];
    var i := 0;
    while i < |requests|
      invariant 0 <= i <= |requests| && |out| == i
      invariant Follows(requests, tries, trace, out) && Tally(requests, trace, out)
      invariant trace[0] == s && trace[i] == sys
      invariant Valid(sys)
    {
      var f := RenderBuffer(sys, requests, tries, trace, out);
      TallyExtend(requests, trace, out, f.sys, f.slice);
      out := out + [f.slice];
      trace := trace + [f.sys];
      sys := f.sys;
      i := i + 1;
    }
  }

  /** A new session's first render fetches a chunk before it hands out any
      byte, so the never-initialised chunk pointer is not used. */
  lemma FirstRenderFetches(id: ReaderThread.ReaderId, ckSize: nat, ssndOffset: nat, lockOk: bool)
    requires ckSize < Two32 && ssndOffset < Two32
    ensures var s := NewPlayer(id, None, ckSize, ssndOffset);
            var f := GetFileData(s, lockOk);
            var n := NextChunk(s, lockOk).player.manager;
            n.tmpBuffer == f.data && n.bufferSize == f.size && n.bufferOffset == 0
  {
  }

  /** The worker's service of this session's dequeued request: the file
      manager's handling of the read, and a notification of any read error. */
  function WorkerService(s: System, rd: FileManager.ReadResult): (r: System)
    requires Valid(s)
    requires |rd.data| <= FileManager.RequestSize(s.player.manager)
    ensures Valid(r)
    ensures var sv := FileManager.ServiceRead(s.player.manager, rd);
            sv.failure.None? ==> r == WithManager(s, sv.m)
    ensures var sv := FileManager.ServiceRead(s.player.manager, rd);
            sv.failure.Some? ==> r == DoNotification(WithManager(s, sv.m), sv.failure.value)
    ensures var sv := FileManager.ServiceRead(s.player.manager, rd);
            sv.failure.Some? && !s.player.hasNotifier && sv.failure.value != FilePlayUnderrun ==>
              !r.player.connected && (s.player.connected ==> !r.player.manager.engaged)
  {
    var sv := FileManager.ServiceRead(s.player.manager, rd);
    var s1 := WithManager(s, sv.m);
    match sv.failure
    case None => s1
    case Some(status) => DoNotification(s1, status)
  }

  /** The double buffer hands out what the worker filled: when the render
      path is waiting for data, a successful fill makes the next request
      return exactly the half that was just filled, whole. */
  lemma FilledHalfIsDeliveredNext(s: System, rd: FileManager.ReadResult, lockOk: bool)
    requires Valid(s)
    requires !s.player.manager.finished
    requires s.player.manager.readFromFirst == s.player.manager.writeToFirst
    requires FileManager.RequestSize(s.player.manager) > 0
    requires |rd.data| <= FileManager.RequestSize(s.player.manager) && FileManager.ReadOk(rd.status)
    ensures var m := s.player.manager;
            var f := GetFileData(WorkerService(s, rd), lockOk);
            && f.data == Some(FileManager.HalfBase(m, m.writeToFirst))
            && f.size == m.chunkSize
            && FileManager.FilledHalf(m.buffer, WorkerService(s, rd).player.manager.buffer,
                                      FileManager.HalfBase(m, m.writeToFirst), rd.data, m.chunkSize)
  {
  }

  /** The halves fall out of phase: once the ready half has been used up,
      the underrun flips the read flag, so after one successful fill the
      next request finds the flags equal again and underruns a second time,
      although a filled half is waiting. */
  lemma UnderrunThenFillUnderrunsAgain(s: System, rd: FileManager.ReadResult)
    requires Valid(s)
    requires !s.player.manager.finished
    requires s.player.manager.readFromFirst == s.player.manager.writeToFirst
    requires FileManager.RequestSize(s.player.manager) > 0
    requires |rd.data| <= FileManager.RequestSize(s.player.manager) && FileManager.ReadOk(rd.status)
    ensures var f1 := GetFileData(s, true);
            var w := WorkerService(f1.sys, rd);
            var f2 := GetFileData(w, true);
            && f1.data == None
            && !w.player.manager.finished
            && f2.data == None
  {
    var f1 := GetFileData(s, true);
    assert f1.sys.player.manager.readPos == s.player.manager.readPos;
    assert f1.sys.player.manager.writeToFirst == s.player.manager.writeToFirst;
  }

  /** A read error on the last registered reader, with no notifier, makes the
      worker disconnect the session itself and so tell itself to exit. */
  lemma WorkerErrorStopsItsOwnThread(s: System, rd: FileManager.ReadResult)
    requires Valid(s) && s.player.connected && s.player.manager.engaged && !s.player.hasNotifier
    requires s.pool.numReaders == 1
    requires FileManager.RequestSize(s.player.manager) > 0 && |rd.data| <= FileManager.RequestSize(s.player.manager)
    requires !FileManager.ReadOk(rd.status) && rd.status != FilePlayUnderrun
    ensures WorkerService(s, rd).pool.shouldDie
  {
  }
}
